=== FILE: README.md ===
# Unsplash Image Fetcher: a Dafny model of the save hook

This project models the WordPress plugin's `save_post` handler,
`Unsplash_Image_Fetcher::fetch_image`, and the three helpers it calls. When a
draft post is saved, the handler searches the Unsplash photo API for the post's
title, downloads the image, re-encodes it as a PNG, copies it into the upload
directory, registers it as an attachment and makes it the post's featured
image. An instance flag, `is_fetching`, keeps the handler from re-entering
itself. An effect of a run may lead to another `save_post`, for example through
another plugin's hook. The flag turns such a nested call into a no-op.

A run is a pure function `FetchImage(plugin, post, env)`:

- `plugin` holds the instance's two fields, the flag and the cached API key.
- `post` is the snapshot the handler reads: whether the save is a revision,
  `post_type`, `post_status`, the title and whether the post has a thumbnail.
- `env` supplies the outcome of every foreign call. These are the stored API
  key option, the search response after `json_decode`, and whether the
  download decodes. They also include the `uniqid()` token, both
  `wp_upload_dir()` results, whether `imagepng` saved, `wp_mkdir_p`,
  `put_contents`, the id `wp_insert_attachment` returns, and the CMS's
  `wp_check_filetype` and `sanitize_file_name`.

A run returns the new plugin state, the exit path it took, and the trace of
effects it issued. The effects are `Search`, `Download`, `EncodePng`, `MakeDir`,
`Write`, `InsertAttachment`, `AttachMetadata` and `SetThumbnail`. Each effect is
tagged with the value the flag had when the effect was issued.

Modules follow the pipeline:

- `Php`: string falsiness, truthiness of decoded JSON, `isset` on a nested key.
- `Paths`: `basename`, the staged PNG path, and the destination path.
- `Effects`: the effects and the one order the pipeline can issue them in.
- `Locator`: `get_unsplash_image`.
- `Normalizer`: `convert_image_to_png`.
- `Attacher`: `set_featured_image`.
- `Fetcher`: `fetch_image`.
- `Site`: one plugin instance handling a sequence of saves.

Points of the code that are easy to misread:

- `empty($title)` and `! $this->api_key` are PHP falsiness. The strings "" and
  "0" are both empty. `empty()` does not treat whitespace as empty. The title
  `empty()` sees is what `get_the_title` returns after the `the_title` filters, which
  in stock WordPress trim it, so it is an input of a run.
  `Fetcher.Post.title` and `Site.Request.title` are that filtered title.
- `if ($image_url)` tests PHP truthiness of whatever `urls.full` holds. A
  `urls.full` of "", "0", `false`, `0` or an empty array ends the run right
  after the search, the same way a missing one does.
- The id `wp_insert_attachment` returns is not checked. When the insert fails
  (id 0), `AttachMetadata` and `SetThumbnail(post, 0)` are still issued. The
  `Site` model assumes WordPress ignores a thumbnail id of 0.
- The staged PNG is never deleted. When both `wp_upload_dir()` calls return the
  same directory and it exists, the destination is the staged file itself, so
  the copy writes the file onto itself (`Paths.StagedFileIsItsOwnDestination`).

## Model

| member | source | states |
|---|---|---|
| Fetcher.FetchImage | unsplash-feature-image.php:77-117 | The flag is the same after a run as before it, so no flag ever leaks out of a run. Once the flag is taken it is clear on return and the API key option is cached; otherwise the plugin is untouched. Every effect is issued while the flag is set. The i-th effect is the pipeline's i-th step. The number of effects is fixed by the exit path. A run that attaches ends by setting that attachment as the post's thumbnail. |
| Fetcher.IgnoredSaveIsNoOp | unsplash-feature-image.php:78-80 | A revision, a non-`post`, a non-`draft`, or a save while the flag is set ends with no effect and an unchanged plugin. |
| Fetcher.NestedSaveIsNoOp | unsplash-feature-image.php:77-117 | A `save_post` fired by any effect of a run sees the flag set and does nothing at all. |
| Fetcher.EmptyTitleSkips | unsplash-feature-image.php:82-86 | An empty title ("" or "0") ends the run with no effect, before the flag is set or the key is read. |
| Fetcher.MissingKeyStops | unsplash-feature-image.php:88-95 | An absent, "" or "0" API key ends the run with no effect and the flag clear, whether or not the post has a thumbnail, because the key is checked first. |
| Fetcher.ThumbnailStops | unsplash-feature-image.php:97-101 | A post that already has a thumbnail gets no search, and the flag is clear on return. |
| Fetcher.SearchIssuedIff | unsplash-feature-image.php:88-103 | A `Search` is issued if and only if the save passes the gate, the title is non-empty, a key is set and there is no thumbnail. Its query is the title and the stored key. |
| Fetcher.DownloadIssuedIff | unsplash-feature-image.php:103-113 | A `Download` is issued if and only if the search ran and `urls.full` is truthy. What is downloaded is that value. |
| Fetcher.WriteIssuedIff | unsplash-feature-image.php:105-111 | The `Write` is issued if and only if the image was downloaded, decoded and saved as a PNG. |
| Fetcher.WrittenCopy | unsplash-feature-image.php:159-190 | In a run that converts, the PNG is encoded to the staged path, and the `Write` copies that staged file to exactly `dir/<uniqid>.png`, where `dir` is the upload path, or the uploads root when the directory could not be made. |
| Fetcher.TraceLength | unsplash-feature-image.php:103-116 | A run gets past the encoder exactly when the image converted, and past the write exactly when the write succeeded too. A run that gets past the write issues all eight effects. |
| Fetcher.TraceAfterConversion | unsplash-feature-image.php:106-108 | Once a PNG is staged, the rest of the trace is exactly the attach step's effects for that file. The run ends attached if and only if the write succeeded. |
| Fetcher.ExitReasons | unsplash-feature-image.php:141-169 | In a run that found an image, a conversion failure's reason names the step that failed: a download error is `DownloadFailed`, an undecodable download is `DecodeFailed`, and a failed `imagepng` is `PngSaveFailed`. The PNG is encoded exactly when the download decoded. |
| Fetcher.AttachIssuedIff | unsplash-feature-image.php:190-203 | `InsertAttachment` is issued if and only if the write was issued and succeeded. `SetThumbnail` is issued if and only if `InsertAttachment` is. |
| Fetcher.AttachedRecord | unsplash-feature-image.php:191-203 | A run that registers an attachment registers a record with status `inherit` and empty content, whose parent is the post, for the written file. It ends by making that attachment the post's thumbnail. |
| Fetcher.MountainSunrise | unsplash-feature-image.php:77-117 | End to end, with title "mountain sunrise", key "abc123" and every outcome succeeding: eight effects, the last setting attachment 42 as the thumbnail. The flag is clear before and after. |
| Fetcher.FalsyUrlStopsAfterSearch | unsplash-feature-image.php:103-113 | A `urls.full` that PHP reads as false, whatever its type, ends the run right after the search, as a missing one does. |
| Fetcher.SearchStretch | unsplash-feature-image.php:103-114 | The steps after the checks start with the search. They end without an image exactly when `urls.full` is unset or falsy, and they are issued in pipeline order. |
| Fetcher.ConvertStretch | unsplash-feature-image.php:105-111 | From the download on, the run fails in conversion exactly when download, decode or PNG save fails. It attaches exactly when it converts and the write succeeds. |
| Fetcher.AttachStretch | unsplash-feature-image.php:108 | The attach step ends attached exactly when the write succeeds, and then its last effect sets the thumbnail. |
| Php.Empty | unsplash-feature-image.php:83-91 | `empty($title)` and `! $this->api_key` hold for a string exactly when it is "" or "0". Whitespace is not empty. |
| Php.Truthy | unsplash-feature-image.php:105 | `if ($image_url)` on a decoded value: `null`, `false`, zero, "", "0" and an empty array are false, and everything else is true (stated by `Php.FalsyValues`). |
| Php.FalsyValues | unsplash-feature-image.php:105 | The falsy decoded values are exactly `null`, `false`, 0, "", "0" and the empty array. "0.0" and " " are true. |
| Php.MemberIsIsset | unsplash-feature-image.php:131-132 | `isset` finds a stored non-null entry as it is. An entry holding `null` is the same as no entry. Other keys do not matter. A scalar or a list holds no such key. |
| Locator.ImageUrl | unsplash-feature-image.php:120-136 | The search yields `urls.full` exactly when the decoded response is an object whose `urls` is an object holding a non-null `full`. A transport error yields nothing. |
| Locator.ImageUrlReadsOnlyUrls | unsplash-feature-image.php:131-133 | Adding, changing or removing any top-level entry other than `urls` does not change what the search yields. |
| Locator.ImageUrlFindsFull | unsplash-feature-image.php:131-132 | A response whose `urls.full` is a string yields that string. |
| Normalizer.ConvertImageToPng | unsplash-feature-image.php:140-170 | The download is always issued first. A PNG is encoded exactly when the download decoded. The result is a staged path exactly when download, decode and `imagepng` all succeed, and that path is the one encoded to. A download failure is reported as such. |
| Attacher.SetFeaturedImage | unsplash-feature-image.php:173-209 | The directory is made first, then the staged file is written. The attachment, its metadata and the thumbnail follow exactly when the write succeeds, and then the attachment id is the one the insert returned. |
| Attacher.NewAttachment | unsplash-feature-image.php:191-197 | The record takes its MIME type from `wp_check_filetype` of the file name, its title from `sanitize_file_name`, and has empty content and status `inherit` (stated by `Attacher.RegistersCopy`). |
| Attacher.CopiedIntoUploadDir | unsplash-feature-image.php:174-181 | The copy lands directly in the upload path, or directly in `basedir` when the directory could not be made, and keeps the staged file's name. |
| Attacher.RegistersCopy | unsplash-feature-image.php:190-202 | After a successful write, the record is `inherit`, has empty content, takes its MIME type from the file name and its title from the sanitized file name, and its parent is the post. It is registered for the copy, and the metadata is generated for the copy. |
| Paths.Basename | unsplash-feature-image.php:175 | `basename` yields a single path component, no longer than the path. |
| Paths.BasenameIgnoresTrailingSlash | unsplash-feature-image.php:175 | A trailing '/' does not change the basename. |
| Paths.BasenameIsFinalComponent | unsplash-feature-image.php:175 | For a path that does not end in '/', the basename is everything after the last '/', or the whole path when it has none. |
| Paths.LastComponentIsLongestSuffix | unsplash-feature-image.php:175 | The last component is the longest suffix of the path with no '/'. |
| Paths.BasenameOfJoin | unsplash-feature-image.php:175-181 | `basename(dir . '/' . name)` is `name` for any single non-empty component `name`, whatever `dir` is. |
| Paths.StagedNameIsToken | unsplash-feature-image.php:159-160 | The staged PNG's basename is `<uniqid>.png`. |
| Paths.StagedPngPath | unsplash-feature-image.php:159-160 | The PNG is staged in the current upload path under `<uniqid>.png`, the name `Paths.StagedNameIsToken` pins. |
| Paths.Destination | unsplash-feature-image.php:175-181 | The destination lies under the upload path when the directory is ready, otherwise under `basedir`, and it keeps the staged file's name. Its length is the directory's, plus one for the '/', plus the name's. |
| Paths.DestinationIsDirectChild | unsplash-feature-image.php:178-181 | After the directory and its '/', the destination has no further '/': it is not in a sub-directory. |
| Paths.StagedFileIsItsOwnDestination | unsplash-feature-image.php:174-178 | When the upload directory has not changed and exists, the destination is the staged file itself. |
| Site.Handle | unsplash-feature-image.php:97-101 | Over a sequence of saves, the flag ends as it started. Featured posts only accumulate. A post featured before the sequence, or featured by an earlier run in it, gets runs with no effects. |
| Site.NoSearchWhenFeatured | unsplash-feature-image.php:97-101 | A post that has a featured image gets a run with no effects. |
| Site.NoPostFeaturedTwice | unsplash-feature-image.php:97-101 | In one sequence of saves, no post gets a featured image from the plugin twice. |

## Left out

- The settings page, its section, field and option registration (lines 23-74), and the hook registration (line 31). The stored key is an input of each run.
- HTTP transport: both `wp_remote_get` calls are effects, and their outcomes are supplied.
- JSON text: the search body is supplied already decoded. A body that does not parse is supplied as `null`.
- JSON numbers are modelled as reals, so PHP's int/float split is not modelled.
- `urlencode` and the exact bytes of the search URL (line 121): the `Search` effect carries the title and the key it is built from.
- MIME sniffing with `finfo` (lines 149-151): it only logs and does not affect control flow.
- GD (`imagecreatefromstring`, `imagepng`, `imagedestroy`): supplied as a decodable flag and a saved flag. The pixels are not modelled, so nothing is said about the re-encoded image's content or dimensions.
- `uniqid()`: an opaque non-empty hex token, supplied.
- `WP_Filesystem` set-up (lines 183-187) and `get_contents`: the `Write` effect names its source and destination, and its success is supplied.
- `wp_check_filetype` and `sanitize_file_name`: supplied functions.
- `wp_generate_attachment_metadata` and `wp_update_attachment_metadata`: one `AttachMetadata` effect.
- `error_log`: each failure log line corresponds to one `Exit` value, a conversion failure's reason telling its three lines apart. The MIME-type line (line 151) is logged on every path past the download and is not modelled. The message text is not modelled.
- PHP exceptions and fatal errors: an error thrown between lines 88 and 116 would leave the flag set, and the model has no such path. One example is a non-string truthy `urls.full`, such as an array, that `wp_remote_get` rejects. What WordPress does with such a value is not part of this model.
- Concurrency across requests: the flag is a single-request guard and is modelled as such.
- Php.Member: covers keys that are not decimal-integer strings only. PHP converts those keys to integers, but both keys read here ("urls", "full") are non-numeric.
- Paths.Basename: models POSIX hosts only. On Windows, PHP's `basename` also splits on '\\'. Locale-dependent multibyte handling is not modelled either.
- Site.Handle: assumes that a non-zero attachment id passed to `set_post_thumbnail` makes the post featured, and that id 0 does not. These checks are inside WordPress, which is not part of this model.
- Site.Handle: models a closed world in which only the plugin's own runs set featured images, and nothing removes one. A user or another plugin setting or removing a post's featured image between saves is not modelled, so "featured posts only accumulate" holds only in that world.
- Site.NoPostFeaturedTwice: holds only in the same closed world. If a user removes the featured image and saves the draft again, lines 97-116 fetch a second image for the same post.

=== FILE: attacher.dfy ===
/** The attach step (`set_featured_image`): copy the staged PNG into the
    upload directory, register it as an attachment of the post, and make it
    the post's featured image. */
module Attacher {
  import opened Php
  import opened Paths
  import opened Effects

  /** The two CMS helpers whose results go into the attachment record:
      `wp_check_filetype($filename)['type']` and `sanitize_file_name`. */
  datatype Cms = Cms(checkFiletype: string -> Option<string>, sanitizeFileName: string -> string)

  /** The inputs an attach runs against: the `wp_upload_dir()` seen at this
      point, the outcomes of `wp_mkdir_p` and `put_contents`, and the id
      `wp_insert_attachment` returns (0 when it fails). */
  datatype AttachInputs = AttachInputs(
    uploads: UploadDir,
    dirReady: bool,
    written: bool,
    newId: nat,
    cms: Cms)

  /** The effects issued, and the attachment id set as featured image if the
      write succeeded. */
  datatype Attach = Attach(effects: seq<Effect>, attachment: Option<nat>)

  /** The record registered for a stored file named `filename`. */
  function NewAttachment(filename: string, cms: Cms): AttachmentRecord {
    AttachmentRecord(cms.checkFiletype(filename), cms.sanitizeFileName(filename), "", "inherit")
  }

  /** The effects issued: make the directory, copy the staged file, and, only
      after a successful write, register it, attach its metadata and make it
      the post's thumbnail. */
  function SetFeaturedImage(postId: nat, staged: string, inputs: AttachInputs): (r: Attach)
    ensures InOrderFrom(r.effects, 3)
    ensures |r.effects| >= 2 && r.effects[0] == MakeDir(inputs.uploads.path)
    ensures r.effects[1].Write? && r.effects[1].source == staged
    ensures r.attachment.Some? <==> inputs.written
    ensures !inputs.written ==> |r.effects| == 2
    ensures inputs.written ==>
      && |r.effects| == 5
      && r.attachment.value == inputs.newId
      && r.effects[4] == SetThumbnail(postId, inputs.newId)
  {
    var filename := Basename(staged);
    var file := Destination(inputs.uploads, inputs.dirReady, staged);
    var stored := [MakeDir(inputs.uploads.path), Write(file, staged)];
    if inputs.written then
      Attach(stored + [InsertAttachment(NewAttachment(filename, inputs.cms), file, postId),
                       AttachMetadata(inputs.newId, file),
                       SetThumbnail(postId, inputs.newId)],
             Some(inputs.newId))
    else
      Attach(stored, None)
  }

  /** The staged file is copied directly into the upload directory, or into
      the uploads root when that directory could not be made, and keeps its
      name. */
  lemma CopiedIntoUploadDir(postId: nat, staged: string, inputs: AttachInputs)
    ensures var dest := SetFeaturedImage(postId, staged, inputs).effects[1].dest;
      var dir := if inputs.dirReady then inputs.uploads.path else inputs.uploads.basedir;
      && dir + "/" <= dest
      && |dest| == |dir| + 1 + |Basename(staged)|
      && '/' !in dest[|dir| + 1..]
      && (Basename(staged) != [] ==> Basename(dest) == Basename(staged))
  {
    DestinationIsDirectChild(inputs.uploads, inputs.dirReady, staged);
  }

  /** After a successful write the copy is registered as an `inherit`
      attachment of the post with empty content, the MIME type of its name and
      its sanitized name as title, and its metadata is generated for the copy. */
  lemma RegistersCopy(postId: nat, staged: string, inputs: AttachInputs)
    requires inputs.written
    ensures var r := SetFeaturedImage(postId, staged, inputs);
      && r.effects[2].InsertAttachment?
      && r.effects[2].file == r.effects[1].dest
      && r.effects[2].parent == postId
      && r.effects[2].record.status == "inherit"
      && r.effects[2].record.content == ""
      && r.effects[2].record.mimeType == inputs.cms.checkFiletype(Basename(staged))
      && r.effects[2].record.title == inputs.cms.sanitizeFileName(Basename(staged))
      && r.effects[3] == AttachMetadata(inputs.newId, r.effects[1].dest)
  {
  }
}

=== FILE: effects.dfy ===
/** The foreign calls a run of the save hook issues, as abstract effects.
    Their results are not computed here: each is supplied to the run as an
    outcome, so the model is a pure function of its inputs. */
module Effects {
  import opened Php

  /** The array handed to `wp_insert_attachment`. `mimeType` is the `type`
      entry of `wp_check_filetype` (`None` for its `false`). */
  datatype AttachmentRecord = AttachmentRecord(
    mimeType: Option<string>,
    title: string,
    content: string,
    status: string)

  datatype Effect =
      /** `wp_remote_get` of the photo-search endpoint for this query and API key. */
    | Search(query: string, apiKey: string)
      /** `wp_remote_get` of the image URL found by the search (any truthy value). */
    | Download(url: Json)
      /** `imagepng` of the decoded image into the staging path. */
    | EncodePng(path: string)
      /** `wp_mkdir_p` of the current upload directory. */
    | MakeDir(path: string)
      /** `put_contents(dest, get_contents(source))` through the filesystem abstraction. */
    | Write(dest: string, source: string)
      /** `wp_insert_attachment(record, file, parent)`. */
    | InsertAttachment(record: AttachmentRecord, file: string, parent: nat)
      /** `wp_generate_attachment_metadata` followed by `wp_update_attachment_metadata`. */
    | AttachMetadata(id: nat, file: string)
      /** `set_post_thumbnail(post, attachment)`. */
    | SetThumbnail(post: nat, attachment: nat)

  /** The position of each effect in the one order the pipeline can issue
      them in. */
  function Stage(e: Effect): nat {
    match e
    case Search(_, _) => 0
    case Download(_) => 1
    case EncodePng(_) => 2
    case MakeDir(_) => 3
    case Write(_, _) => 4
    case InsertAttachment(_, _, _) => 5
    case AttachMetadata(_, _) => 6
    case SetThumbnail(_, _) => 7
  }

  /** A sequence of effects each of which sits at its own stage, counted from
      `first`: every effect is preceded by all the effects the pipeline issues
      before it, and by nothing else. */
  predicate InOrderFrom(effects: seq<Effect>, first: nat) {
    forall i :: 0 <= i < |effects| ==> Stage(effects[i]) == first + i
  }

  lemma InOrderConcat(a: seq<Effect>, b: seq<Effect>, first: nat)
    requires InOrderFrom(a, first) && InOrderFrom(b, first + |a|)
    ensures InOrderFrom(a + b, first)
  {
  }
}

=== FILE: fetcher.dfy ===
/** The `save_post` handler (`fetch_image`): the gate, the re-entrancy flag,
    and the pipeline search -> convert -> attach that stops at the first
    failure. A run is a pure function of the plugin's state, the saved post,
    and the outcomes of the foreign calls it makes. */
module Fetcher {
  import opened Php
  import opened Paths
  import opened Effects
  import opened Locator
  import opened Normalizer
  import opened Attacher

  /** The plugin instance's fields: the re-entrancy flag `is_fetching` and the
      cached `api_key` (`None` for PHP's `null` and `false`). */
  datatype Plugin = Plugin(isFetching: bool, apiKey: Option<string>)

  /** The instance as the constructor leaves it. */
  const Loaded := Plugin(false, None)

  /** What the handler reads about the saved post: whether the save is a
      revision, `post_type`, `post_status`, the title `get_the_title` returns,
      and whether `has_post_thumbnail` holds. */
  datatype Post = Post(
    id: nat,
    isRevision: bool,
    postType: string,
    status: string,
    title: string,
    hasThumbnail: bool)

  /** The outcomes of the foreign calls of one run: the stored API key option
      (`None` when `get_option` returns `false`), the search response, and the
      inputs of the conversion and attach steps. */
  datatype Env = Env(
    apiKeyOption: Option<string>,
    search: SearchResponse,
    convert: ConvertInputs,
    attach: AttachInputs)

  /** The return path a run took. Each exit but `NoImage` has its own log
      line; `NoImage` covers the lines logged at 113, 124 and 135. */
  datatype Exit =
    | Ignored
    | EmptyTitle
    | MissingKey
    | HasThumbnail
    | NoImage
    | ConvertFailed(reason: ConvertFailure)
    | WriteFailed
    | Attached(id: nat)

  /** An effect together with the value of `is_fetching` when it was issued:
      a `save_post` that the effect leads to runs the handler with that value. */
  datatype Issued = Issued(fetching: bool, effect: Effect)

  datatype Run = Run(plugin: Plugin, trace: seq<Issued>, exit: Exit)

  /** `! $this->api_key` is false: an option is stored and is not "" or "0". */
  predicate KeySet(key: Option<string>) {
    key.Some? && !Empty(key.value)
  }

  /** The save is left alone outright: a revision, not a post, a run already in
      flight, or not a draft. */
  predicate Ignores(p: Plugin, post: Post) {
    post.isRevision || post.postType != "post" || p.isFetching || post.status != "draft"
  }

  /** The run gets far enough to set the flag. */
  predicate Locks(p: Plugin, post: Post) {
    !Ignores(p, post) && !Empty(post.title)
  }

  /** The run gets far enough to query the photo search. */
  predicate Searches(p: Plugin, post: Post, env: Env) {
    Locks(p, post) && KeySet(env.apiKeyOption) && !post.hasThumbnail
  }

  /** The search response holds a `urls.full` that is truthy in PHP. */
  predicate FindsImage(search: SearchResponse) {
    ImageUrl(search).Some? && Truthy(ImageUrl(search).value)
  }

  /** How many effects a run that ends on `exit` has issued. */
  function EffectCount(exit: Exit): nat {
    match exit
    case Ignored => 0
    case EmptyTitle => 0
    case MissingKey => 0
    case HasThumbnail => 0
    case NoImage => 1
    case ConvertFailed(reason) => if reason == PngSaveFailed then 3 else 2
    case WriteFailed => 5
    case Attached(_) => 8
  }

  /** The effects, each issued in plugin state `p`. */
  function Tag(p: Plugin, effects: seq<Effect>): seq<Issued> {
    seq(|effects|, i requires 0 <= i < |effects| => Issued(p.isFetching, effects[i]))
  }

  /** The effects a stretch of the pipeline issued and the path it ended on. */
  datatype Stretch = Stretch(effects: seq<Effect>, exit: Exit)

  /** The attach step, from the staged PNG on. */
  function AttachStretch(postId: nat, staged: string, env: Env): (r: Stretch)
    ensures InOrderFrom(r.effects, 3)
    ensures |r.effects| + 3 == EffectCount(r.exit)
    ensures r.exit.WriteFailed? || r.exit.Attached?
    ensures r.exit.Attached? <==> env.attach.written
    ensures r.exit.Attached? ==> r.effects[4] == SetThumbnail(postId, r.exit.id)
  {
    var attach := SetFeaturedImage(postId, staged, env.attach);
    Stretch(attach.effects,
            if attach.attachment.Some? then Attached(attach.attachment.value) else WriteFailed)
  }

  /** The conversion and attach steps, from the found image URL on. */
  function ConvertStretch(postId: nat, url: Json, env: Env): (r: Stretch)
    ensures InOrderFrom(r.effects, 1)
    ensures |r.effects| + 1 == EffectCount(r.exit)
    ensures r.exit.ConvertFailed? || r.exit.WriteFailed? || r.exit.Attached?
    ensures r.exit.ConvertFailed? <==> !Converts(env.convert)
    ensures r.exit.Attached? <==> Converts(env.convert) && env.attach.written
    ensures r.exit.Attached? ==> r.effects[6] == SetThumbnail(postId, r.exit.id)
  {
    var conversion := ConvertImageToPng(url, env.convert);
    match conversion.outcome
    case Failed(reason) => Stretch(conversion.effects, ConvertFailed(reason))
    case Png(staged) =>
      var rest := AttachStretch(postId, staged, env);
      InOrderConcat(conversion.effects, rest.effects, 1);
      Stretch(conversion.effects + rest.effects, rest.exit)
  }

  /** Everything after the gate, the key check and the thumbnail check. */
  function SearchStretch(post: Post, key: string, env: Env): (r: Stretch)
    ensures InOrderFrom(r.effects, 0)
    ensures |r.effects| == EffectCount(r.exit)
    ensures r.exit.NoImage? || r.exit.ConvertFailed? || r.exit.WriteFailed? || r.exit.Attached?
    ensures r.exit.NoImage? <==> !FindsImage(env.search)
    ensures r.effects[0] == Search(post.title, key)
    ensures r.exit.Attached? ==> r.effects[7] == SetThumbnail(post.id, r.exit.id)
  {
    var found := ImageUrl(env.search);
    if !FindsImage(env.search) then Stretch([Search(post.title, key)], NoImage)
    else
      var rest := ConvertStretch(post.id, found.value, env);
      InOrderConcat([Search(post.title, key)], rest.effects, 0);
      Stretch([Search(post.title, key)] + rest.effects, rest.exit)
  }

  function FetchImage(p: Plugin, post: Post, env: Env): (r: Run)
    // no flag leaks out of a run, and the key is cached only once the flag was taken
    ensures r.plugin.isFetching == p.isFetching
    ensures Locks(p, post) ==> r.plugin == Plugin(false, env.apiKeyOption)
    ensures !Locks(p, post) ==> r.plugin == p
    // every foreign call is made while the flag is set
    ensures forall i :: 0 <= i < |r.trace| ==> r.trace[i].fetching
    // each effect is preceded by exactly the effects the pipeline puts before it
    ensures forall i :: 0 <= i < |r.trace| ==> Stage(r.trace[i].effect) == i
    ensures |r.trace| == EffectCount(r.exit)
    ensures r.exit.Attached? ==> r.trace[7].effect == SetThumbnail(post.id, r.exit.id)
  {
    if Ignores(p, post) then Run(p, [], Ignored)
    else if Empty(post.title) then Run(p, [], EmptyTitle)
    else
      var running := p.(isFetching := true, apiKey := env.apiKeyOption);
      var idle := running.(isFetching := false);
      if !KeySet(running.apiKey) then Run(idle, [], MissingKey)
      else if post.hasThumbnail then Run(idle, [], HasThumbnail)
      else
        var rest := SearchStretch(post, running.apiKey.value, env);
        Run(idle, Tag(running, rest.effects), rest.exit)
  }

  /** A revision, a non-post, a non-draft, or a save made while a run is in
      flight is left exactly as it was: no effect, no state change. */
  lemma IgnoredSaveIsNoOp(p: Plugin, post: Post, env: Env)
    requires Ignores(p, post)
    ensures FetchImage(p, post, env) == Run(p, [], Ignored)
  {
  }

  /** A `save_post` that any effect of a run leads to (for example through
      another plugin's hook) re-enters the handler with the flag set, and so
      does nothing at all. */
  lemma NestedSaveIsNoOp(p: Plugin, post: Post, env: Env, i: nat, q: Plugin, nested: Post, nestedEnv: Env)
    requires i < |FetchImage(p, post, env).trace|
    requires q.isFetching == FetchImage(p, post, env).trace[i].fetching
    ensures FetchImage(q, nested, nestedEnv) == Run(q, [], Ignored)
  {
  }

  /** An empty title ("" or "0") ends the run before the flag is set and
      before the API key is read. */
  lemma EmptyTitleSkips(p: Plugin, post: Post, env: Env)
    requires !Ignores(p, post) && Empty(post.title)
    ensures FetchImage(p, post, env) == Run(p, [], EmptyTitle)
    ensures !FetchImage(p, post, env).plugin.isFetching
  {
  }

  /** Without a usable API key the run ends with no effect and the flag
      cleared, whether or not the post has a thumbnail: the key is checked
      first. */
  lemma MissingKeyStops(p: Plugin, post: Post, env: Env)
    requires Locks(p, post) && !KeySet(env.apiKeyOption)
    ensures FetchImage(p, post, env) == Run(Plugin(false, env.apiKeyOption), [], MissingKey)
  {
  }

  /** A post that already has a featured image gets no search, and the flag
      is cleared. */
  lemma ThumbnailStops(p: Plugin, post: Post, env: Env)
    requires Locks(p, post) && KeySet(env.apiKeyOption) && post.hasThumbnail
    ensures FetchImage(p, post, env) == Run(Plugin(false, env.apiKeyOption), [], HasThumbnail)
  {
  }

  /** The photo search is queried exactly when the save passes the gate, the
      title is not empty, a key is set and the post has no thumbnail; the query
      is the title and the stored key. */
  lemma SearchIssuedIff(p: Plugin, post: Post, env: Env)
    ensures var r := FetchImage(p, post, env);
      (exists i :: 0 <= i < |r.trace| && r.trace[i].effect.Search?) <==> Searches(p, post, env)
    ensures Searches(p, post, env) ==>
      FetchImage(p, post, env).trace[0].effect == Search(post.title, env.apiKeyOption.value)
  {
    var r := FetchImage(p, post, env);
    if Searches(p, post, env) {
      assert r.trace[0].effect.Search?;
    }
  }

  /** The image is downloaded exactly when the search ran and its response
      holds a truthy `urls.full`, and the download is of that value. */
  lemma DownloadIssuedIff(p: Plugin, post: Post, env: Env)
    ensures var r := FetchImage(p, post, env);
      (exists i :: 0 <= i < |r.trace| && r.trace[i].effect.Download?)
      <==> Searches(p, post, env) && FindsImage(env.search)
    ensures Searches(p, post, env) && FindsImage(env.search) ==>
      FetchImage(p, post, env).trace[1].effect == Download(ImageUrl(env.search).value)
  {
    var r := FetchImage(p, post, env);
    if Searches(p, post, env) && FindsImage(env.search) {
      assert r.trace[1].effect.Download?;
    }
  }

  /** The staged PNG is written to the upload directory exactly when the image
      was downloaded, decoded and saved as a PNG. */
  lemma WriteIssuedIff(p: Plugin, post: Post, env: Env)
    ensures var r := FetchImage(p, post, env);
      (exists i :: 0 <= i < |r.trace| && r.trace[i].effect.Write?)
      <==> Searches(p, post, env) && FindsImage(env.search) && Converts(env.convert)
  {
    StagesReached(FetchImage(p, post, env).trace);
    TraceLength(p, post, env);
  }

  /** What is encoded is the staged file, and what is written is a copy of
      it, directly in the upload directory (or the uploads root), under its
      own `<uniqid>.png` name. */
  lemma WrittenCopy(p: Plugin, post: Post, env: Env)
    requires Searches(p, post, env) && FindsImage(env.search) && Converts(env.convert)
    ensures var r := FetchImage(p, post, env);
      var staged := StagedPngPath(env.convert.uploads, env.convert.token);
      var dir := if env.attach.dirReady then env.attach.uploads.path else env.attach.uploads.basedir;
      && r.trace[2].effect == EncodePng(staged)
      && r.trace[4].effect.Write?
      && r.trace[4].effect.source == staged
      && r.trace[4].effect.dest == dir + "/" + env.convert.token + ".png"
      && Basename(r.trace[4].effect.dest) == env.convert.token + ".png"
  {
    var staged := StagedPngPath(env.convert.uploads, env.convert.token);
    TraceAfterConversion(p, post, env);
    StagedNameIsToken(env.convert.uploads, env.convert.token);
    CopiedIntoUploadDir(post.id, staged, env.attach);
  }

  /** In a run that staged its PNG, the effects from `MakeDir` on are exactly
      those of the attach step for the staged file. */
  lemma TraceAfterConversion(p: Plugin, post: Post, env: Env)
    requires Searches(p, post, env) && FindsImage(env.search) && Converts(env.convert)
    ensures var r := FetchImage(p, post, env);
      var a := SetFeaturedImage(post.id, StagedPngPath(env.convert.uploads, env.convert.token), env.attach);
      && |r.trace| == 3 + |a.effects|
      && r.exit == (if env.attach.written then Attached(env.attach.newId) else WriteFailed)
      && forall k :: 3 <= k < |r.trace| ==> r.trace[k].effect == a.effects[k - 3]
  {
  }

  /** In a trace whose i-th effect sits at stage i, a write, a registration
      or a thumbnail occurs exactly when the trace reaches that stage. */
  lemma StagesReached(trace: seq<Issued>)
    requires forall i :: 0 <= i < |trace| ==> Stage(trace[i].effect) == i
    ensures (exists i :: 0 <= i < |trace| && trace[i].effect.Write?) <==> 4 < |trace|
    ensures (exists i :: 0 <= i < |trace| && trace[i].effect.InsertAttachment?) <==> 5 < |trace|
    ensures (exists i :: 0 <= i < |trace| && trace[i].effect.SetThumbnail?) <==> 7 < |trace|
  {
    if 4 < |trace| { assert Stage(trace[4].effect) == 4; }
    if 5 < |trace| { assert Stage(trace[5].effect) == 5; }
    if 7 < |trace| { assert Stage(trace[7].effect) == 7; }
  }

  /** How far a run gets, read off its length: past the encoder exactly when
      the image converted, past the write exactly when the write succeeded too,
      and a run that gets past the write goes all the way. */
  lemma TraceLength(p: Plugin, post: Post, env: Env)
    ensures var r := FetchImage(p, post, env);
      && (4 < |r.trace| <==> Searches(p, post, env) && FindsImage(env.search) && Converts(env.convert))
      && (5 < |r.trace| <==> Searches(p, post, env) && FindsImage(env.search) && Converts(env.convert)
                             && env.attach.written)
      && (5 < |r.trace| ==> |r.trace| == 8)
  {
    var r := FetchImage(p, post, env);
    if Searches(p, post, env) && FindsImage(env.search) && Converts(env.convert) {
      TraceAfterConversion(p, post, env);
    }
  }

  /** A run that found an image and fails in conversion ends with the reason
      of the step that failed, and it encodes a PNG exactly when the download
      decoded. */
  lemma ExitReasons(p: Plugin, post: Post, env: Env)
    requires Searches(p, post, env) && FindsImage(env.search)
    ensures var r := FetchImage(p, post, env);
      && (r.exit == ConvertFailed(DownloadFailed) <==> env.convert.download.DownloadError?)
      && (r.exit == ConvertFailed(DecodeFailed) <==> env.convert.download == Downloaded(false))
      && (r.exit == ConvertFailed(PngSaveFailed) <==>
            env.convert.download == Downloaded(true) && !env.convert.pngSaved)
      && (2 < |r.trace| <==> env.convert.download == Downloaded(true))
  {
  }

  /** The attachment is registered, and made the featured image, exactly when
      the write succeeded. */
  lemma AttachIssuedIff(p: Plugin, post: Post, env: Env)
    ensures var r := FetchImage(p, post, env);
      (exists i :: 0 <= i < |r.trace| && r.trace[i].effect.InsertAttachment?)
      <==> (exists i :: 0 <= i < |r.trace| && r.trace[i].effect.Write?) && env.attach.written
    ensures var r := FetchImage(p, post, env);
      (exists i :: 0 <= i < |r.trace| && r.trace[i].effect.SetThumbnail?)
      <==> (exists i :: 0 <= i < |r.trace| && r.trace[i].effect.InsertAttachment?)
  {
    StagesReached(FetchImage(p, post, env).trace);
    TraceLength(p, post, env);
  }

  /** A run that registers an attachment registers an `inherit` attachment
      with empty content, parented to the post, for the file just written,
      and ends by making it the post's thumbnail. */
  lemma AttachedRecord(p: Plugin, post: Post, env: Env)
    requires 5 < |FetchImage(p, post, env).trace|
    ensures var r := FetchImage(p, post, env);
      && r.trace[5].effect.InsertAttachment?
      && r.trace[5].effect.record.status == "inherit"
      && r.trace[5].effect.record.content == ""
      && r.trace[5].effect.parent == post.id
      && r.trace[5].effect.file == r.trace[4].effect.dest
      && r.trace[7].effect == SetThumbnail(post.id, env.attach.newId)
      && r.exit == Attached(env.attach.newId)
  {
    TraceLength(p, post, env);
    TraceAfterConversion(p, post, env);
    RegistersCopy(post.id, StagedPngPath(env.convert.uploads, env.convert.token), env.attach);
  }

  /** A whole successful run: title "mountain sunrise", key "abc123", a search
      response whose `urls.full` is an image URL, a decodable download, and
      every write succeeding. Eight effects, the last one making attachment 42
      the post's thumbnail, and the flag is clear before and after. */
  lemma MountainSunrise(cms: Cms)
    ensures
      var uploads := UploadDir("/var/www/wp-content/uploads/2024/05", "/var/www/wp-content/uploads");
      var url := JString("https://img.example/x.jpg");
      var env := Env(
        Some("abc123"),
        Body(JObject(map["urls" := JObject(map["full" := url])])),
        ConvertInputs(Downloaded(true), "65f1c0a2b3d4e", uploads, true),
        AttachInputs(uploads, true, true, 42, cms));
      var staged := StagedPngPath(uploads, "65f1c0a2b3d4e");
      var r := FetchImage(Loaded, Post(7, false, "post", "draft", "mountain sunrise", false), env);
      && !Loaded.isFetching
      && r.plugin == Plugin(false, Some("abc123"))
      && r.exit == Attached(42)
      && |r.trace| == 8
      && r.trace[0].effect == Search("mountain sunrise", "abc123")
      && r.trace[1].effect == Download(url)
      && r.trace[2].effect == EncodePng(staged)
      && r.trace[4].effect == Write(staged, staged)
      && r.trace[7].effect == SetThumbnail(7, 42)
  {
    var uploads := UploadDir("/var/www/wp-content/uploads/2024/05", "/var/www/wp-content/uploads");
    var url := JString("https://img.example/x.jpg");
    var env := Env(
      Some("abc123"),
      Body(JObject(map["urls" := JObject(map["full" := url])])),
      ConvertInputs(Downloaded(true), "65f1c0a2b3d4e", uploads, true),
      AttachInputs(uploads, true, true, 42, cms));
    var post := Post(7, false, "post", "draft", "mountain sunrise", false);
    assert ImageUrl(env.search) == Some(url);
    StagedFileIsItsOwnDestination(uploads, "65f1c0a2b3d4e");
    TraceAfterConversion(Loaded, post, env);
    SearchIssuedIff(Loaded, post, env);
    DownloadIssuedIff(Loaded, post, env);
    WrittenCopy(Loaded, post, env);
  }

  /** A `urls.full` that PHP reads as false ("", "0", `false`, 0, an empty
      array) ends the run right after the search, like a missing one. */
  lemma FalsyUrlStopsAfterSearch(p: Plugin, post: Post, env: Env, full: Json)
    requires Searches(p, post, env)
    requires env.search == Body(JObject(map["urls" := JObject(map["full" := full])]))
    requires !Truthy(full)
    ensures FetchImage(p, post, env).exit == NoImage
    ensures |FetchImage(p, post, env).trace| == 1
  {
  }
}

=== FILE: locator.dfy ===
/** The search step (`get_unsplash_image`): which value of the search
    response the pipeline goes on with. The request itself is the `Search`
    effect; its response is supplied. */
module Locator {
  import opened Php

  /** What `wp_remote_get` returned for the search request: a transport error
      (`WP_Error`), or a response whose body has gone through
      `json_decode($body, true)`. */
  datatype SearchResponse =
    | TransportError
    | Body(decoded: Json)

  /** `$data['urls']['full']` if it is set, `None` (the source's `false`)
      otherwise. A transport error fails without a body being looked at. */
  function ImageUrl(response: SearchResponse): (r: Option<Json>)
    ensures response.TransportError? ==> r.None?
    ensures r.Some? ==> r.value != JNull
    ensures r.Some? <==>
      && response.Body?
      && response.decoded.JObject?
      && "urls" in response.decoded.members
      && response.decoded.members["urls"].JObject?
      && "full" in response.decoded.members["urls"].members
      && response.decoded.members["urls"].members["full"] != JNull
    ensures r.Some? ==> r.value == response.decoded.members["urls"].members["full"]
  {
    match response
    case TransportError => None
    case Body(data) =>
      match Member(data, "urls")
      case None => None
      case Some(urls) => Member(urls, "full")
  }

  /** Only the `urls` entry of the response decides the result: any other
      top-level entry may be added, changed or dropped. */
  lemma ImageUrlReadsOnlyUrls(members: map<string, Json>, key: string, v: Json)
    requires key != "urls"
    ensures ImageUrl(Body(JObject(members[key := v]))) == ImageUrl(Body(JObject(members)))
    ensures ImageUrl(Body(JObject(members - {key}))) == ImageUrl(Body(JObject(members)))
  {
  }

  /** A response that carries a full-size URL string yields exactly that string. */
  lemma ImageUrlFindsFull(members: map<string, Json>, urls: map<string, Json>, full: string)
    requires "urls" in members && members["urls"] == JObject(urls)
    requires "full" in urls && urls["full"] == JString(full)
    ensures ImageUrl(Body(JObject(members))) == Some(JString(full))
  {
  }
}

=== FILE: normalizer.dfy ===
/** The conversion step (`convert_image_to_png`): download the found image,
    decode it, and encode it as a PNG in the staging directory. Download,
    decoding and encoding are foreign; their outcomes are supplied. */
module Normalizer {
  import opened Php
  import opened Paths
  import opened Effects

  /** What `wp_remote_get` of the image URL returned: a transport error, or a
      body of which `imagecreatefromstring` either could or could not make an
      image. */
  datatype DownloadResponse =
    | DownloadError
    | Downloaded(decodable: bool)

  datatype ConvertFailure = DownloadFailed | DecodeFailed | PngSaveFailed

  datatype ConvertOutcome = Png(path: string) | Failed(reason: ConvertFailure)

  datatype Conversion = Conversion(effects: seq<Effect>, outcome: ConvertOutcome)

  /** The inputs a conversion runs against: the download's outcome, the
      `uniqid()` token, the `wp_upload_dir()` seen at this point, and whether
      `imagepng` succeeded. */
  datatype ConvertInputs = ConvertInputs(
    download: DownloadResponse,
    token: UniqueToken,
    uploads: UploadDir,
    pngSaved: bool)

  /** The download decoded as an image and `imagepng` saved it. */
  predicate Converts(inputs: ConvertInputs) {
    inputs.download.Downloaded? && inputs.download.decodable && inputs.pngSaved
  }

  function ConvertImageToPng(url: Json, inputs: ConvertInputs): (r: Conversion)
    ensures InOrderFrom(r.effects, 1)
    ensures 1 <= |r.effects| <= 2 && r.effects[0] == Download(url)
    ensures r.outcome.Png? <==> Converts(inputs)
    // a PNG is encoded exactly when the download decoded as an image
    ensures |r.effects| == 2 <==> inputs.download.Downloaded? && inputs.download.decodable
    ensures |r.effects| == 2 ==> r.effects[1] == EncodePng(StagedPngPath(inputs.uploads, inputs.token))
    // the staged path returned is the one the PNG was encoded to
    ensures r.outcome.Png? ==>
      && r.effects[1] == EncodePng(r.outcome.path)
      && r.outcome.path == StagedPngPath(inputs.uploads, inputs.token)
    // each failure is reported with the reason of the step that failed
    ensures r.outcome == Failed(DownloadFailed) <==> inputs.download.DownloadError?
    ensures r.outcome == Failed(DecodeFailed) <==> inputs.download == Downloaded(false)
    ensures r.outcome == Failed(PngSaveFailed) <==> inputs.download == Downloaded(true) && !inputs.pngSaved
  {
    match inputs.download
    case DownloadError => Conversion([Download(url)], Failed(DownloadFailed))
    case Downloaded(decodable) =>
      if !decodable then Conversion([Download(url)], Failed(DecodeFailed))
      else
        var path := StagedPngPath(inputs.uploads, inputs.token);
        Conversion([Download(url), EncodePng(path)],
                   if inputs.pngSaved then Png(path) else Failed(PngSaveFailed))
  }
}

=== FILE: paths.dfy ===
/** File names and directories: PHP's `basename`, the staged PNG path the
    converter writes, and the destination the attacher copies it to. */
module Paths {

  /** The two entries of `wp_upload_dir()` the plugin reads: the current
      upload directory (`path`) and the uploads root (`basedir`). */
  datatype UploadDir = UploadDir(path: string, basedir: string)

  predicate IsHexDigit(c: char) {
    '0' <= c <= '9' || 'a' <= c <= 'f'
  }

  /** What `uniqid()` returns: a non-empty run of lower-case hex digits.
      Its value is not modelled; a run supplies it. */
  type UniqueToken = t: string | |t| > 0 && forall i :: 0 <= i < |t| ==> IsHexDigit(t[i])
    witness "0"

  /** `path` with every trailing '/' removed. */
  function StripTrailingSlashes(path: string): (r: string)
    ensures r <= path
    ensures r == [] || r[|r| - 1] != '/'
  {
    if |path| > 0 && path[|path| - 1] == '/' then StripTrailingSlashes(path[..|path| - 1])
    else path
  }

  /** The part of `path` after its last '/' (all of it when it has none). */
  function LastComponent(path: string): (r: string)
    ensures '/' !in r
    ensures |r| <= |path|
  {
    if |path| == 0 || path[|path| - 1] == '/' then []
    else LastComponent(path[..|path| - 1]) + [path[|path| - 1]]
  }

  /** The last component is the longest suffix of `path` free of '/'. */
  lemma {:induction false} LastComponentIsLongestSuffix(path: string)
    ensures LastComponent(path) == path[|path| - |LastComponent(path)|..]
    ensures |LastComponent(path)| < |path| ==> path[|path| - |LastComponent(path)| - 1] == '/'
  {
    if |path| > 0 && path[|path| - 1] != '/' {
      var init := path[..|path| - 1];
      LastComponentIsLongestSuffix(init);
      assert path == init + [path[|path| - 1]];
    }
  }

  /** PHP's `basename($path)` on a POSIX host: trailing slashes are ignored and
      the final path component is returned ("" for "" and for "/"). */
  function Basename(path: string): (r: string)
    ensures '/' !in r
    ensures |r| <= |path|
  {
    LastComponent(StripTrailingSlashes(path))
  }

  /** Trailing slashes do not change the basename. */
  lemma BasenameIgnoresTrailingSlash(path: string)
    ensures Basename(path + "/") == Basename(path)
  {
  }

  /** For a path that does not end in '/', the basename is everything after
      the last '/'. */
  lemma BasenameIsFinalComponent(path: string)
    requires path != [] && path[|path| - 1] != '/'
    ensures var b := Basename(path);
      && b == path[|path| - |b|..]
      && (|b| < |path| ==> path[|path| - |b| - 1] == '/')
  {
    LastComponentIsLongestSuffix(path);
  }

  /** `$dir . '/' . $name`. */
  function Join(dir: string, name: string): string {
    dir + "/" + name
  }

  /** The basename of `dir/name` is `name` whenever `name` is a single
      non-empty path component, whatever `dir` is. */
  lemma {:induction false} BasenameOfJoin(dir: string, name: string)
    requires name != [] && '/' !in name
    ensures Basename(Join(dir, name)) == name
  {
    var s := Join(dir, name);
    assert s == (dir + "/") + name;
    assert s[|s| - 1] == name[|name| - 1];
    var r := LastComponent(s);
    LastComponentIsLongestSuffix(s);
    assert s[|dir|] == '/';
    assert |r| == |name|;
    assert s[|s| - |name|..] == name;
  }

  /** Where the converter stages its PNG: `path/<uniqid>.png` inside the
      current upload directory. */
  function StagedPngPath(uploads: UploadDir, token: UniqueToken): string {
    Join(uploads.path, token + ".png")
  }

  /** The staged file is named after the token alone, whatever the directory. */
  lemma StagedNameIsToken(uploads: UploadDir, token: UniqueToken)
    ensures Basename(StagedPngPath(uploads, token)) == token + ".png"
  {
    var name := token + ".png";
    forall i | 0 <= i < |name|
      ensures name[i] != '/'
    {
      if i < |token| {
        assert IsHexDigit(token[i]);
      }
    }
    BasenameOfJoin(uploads.path, name);
  }

  /** Where the attacher stores the staged file: under the current upload
      directory when that directory exists or can be created, otherwise under
      the uploads root; the staged file's name is kept, and the file sits
      directly in that directory. */
  function Destination(uploads: UploadDir, dirReady: bool, staged: string): (r: string)
    ensures dirReady ==> uploads.path + "/" <= r
    ensures !dirReady ==> uploads.basedir + "/" <= r
    ensures Basename(staged) != [] ==> Basename(r) == Basename(staged)
    ensures |r| == |if dirReady then uploads.path else uploads.basedir| + 1 + |Basename(staged)|
  {
    var name := Basename(staged);
    var dir := if dirReady then uploads.path else uploads.basedir;
    var r := Join(dir, name);
    assert r[..|dir| + 1] == dir + "/";
    if name != [] then BasenameOfJoin(dir, name); r else r
  }

  /** Nothing follows the directory but the file's name: the destination sits
      directly in the directory, not in a sub-directory of it. */
  lemma DestinationIsDirectChild(uploads: UploadDir, dirReady: bool, staged: string)
    ensures var dir := if dirReady then uploads.path else uploads.basedir;
      '/' !in Destination(uploads, dirReady, staged)[|dir| + 1..]
  {
    var dir := if dirReady then uploads.path else uploads.basedir;
    assert Destination(uploads, dirReady, staged)[|dir| + 1..] == Basename(staged);
  }

  /** When the upload directory has not changed since the PNG was staged and
      it exists, the destination is the staged file itself: the copy writes
      the file onto itself. */
  lemma StagedFileIsItsOwnDestination(uploads: UploadDir, token: UniqueToken)
    ensures Destination(uploads, true, StagedPngPath(uploads, token)) == StagedPngPath(uploads, token)
  {
    StagedNameIsToken(uploads, token);
  }
}

=== FILE: php.dfy ===
/** The few PHP value semantics the save hook depends on: string falsiness
    (`empty`, `!`), the truthiness of a decoded JSON value, and `isset` on a
    nested array lookup. */
module Php {

  datatype Option<+T> = None | Some(value: T)

  /** `empty($s)` for a string, which is also `!$s`: only "" and "0" are falsy. */
  predicate Empty(s: string) {
    s == "" || s == "0"
  }

  /** A value as `json_decode($body, true)` returns it: JSON objects become
      associative arrays, JSON arrays become lists, and a body that does not
      parse becomes `null`. */
  datatype Json =
    | JNull
    | JBool(b: bool)
    | JNumber(n: real)
    | JString(s: string)
    | JArray(items: seq<Json>)
    | JObject(members: map<string, Json>)

  /** PHP's conversion of a decoded value to bool (as in `if ($v)`). */
  predicate Truthy(v: Json) {
    match v
    case JNull => false
    case JBool(b) => b
    case JNumber(n) => n != 0.0
    case JString(s) => !Empty(s)
    case JArray(items) => |items| > 0
    case JObject(members) => |members| > 0
  }

  /** The values PHP reads as false are exactly `null`, `false`, zero, "",
      "0" and the empty array; every other string, including "0.0" and " ",
      is true. */
  lemma FalsyValues(s: string, n: real, items: seq<Json>, members: map<string, Json>)
    ensures !Truthy(JNull) && !Truthy(JBool(false)) && Truthy(JBool(true))
    ensures Truthy(JNumber(n)) <==> n != 0.0
    ensures Truthy(JString(s)) <==> s != "" && s != "0"
    ensures Truthy(JString("0.0")) && Truthy(JString(" "))
    ensures Truthy(JArray(items)) <==> items != []
    ensures Truthy(JObject(members)) <==> members != map[]
  {
    if members != map[] {
      var k :| k in members;
      assert k in members.Keys;
    }
  }

  /** `$v[$key]` read under `isset`, for a key that is not a decimal integer
      string (both keys this plugin reads, "urls" and "full", are not): only an
      associative array can hold such a key, and a `null` entry counts as unset. */
  function Member(v: Json, key: string): Option<Json> {
    match v
    case JObject(members) =>
      if key in members && members[key] != JNull then Some(members[key]) else None
    case _ => None
  }

  /** What `isset` means for the lookup: a stored non-null entry is found as
      it is, an entry holding `null` is the same as no entry at all, no other
      key of the array matters, and a scalar or a list holds no such key. */
  lemma MemberIsIsset(m: map<string, Json>, key: string, other: string, x: Json, v: Json)
    requires other != key
    ensures key in m && m[key] != JNull ==> Member(JObject(m), key) == Some(m[key])
    ensures Member(JObject(m[key := JNull]), key) == Member(JObject(m - {key}), key) == None
    ensures Member(JObject(m[other := x]), key) == Member(JObject(m), key)
    ensures !v.JObject? ==> Member(v, key) == None
    ensures Member(v, key) != Some(JNull)
  {
  }
}

=== FILE: site.dfy ===
/** One plugin instance handling a sequence of `save_post` events, against a
    site whose featured images the runs themselves set. The instance and its
    flag live for the whole sequence; a post's `has_post_thumbnail` is read
    from the site as the earlier runs left it. */
module Site {
  import opened Effects
  import opened Fetcher

  /** A save event: the post's revision flag, type and status, its title as
      `get_the_title` returns it (after the `the_title` filters), and the
      outcomes of the foreign calls a run for it would make. */
  datatype Request = Request(
    postId: nat,
    isRevision: bool,
    postType: string,
    status: string,
    title: string,
    env: Env)

  /** The plugin instance and the posts that have a featured image. */
  datatype Site = Site(plugin: Plugin, featured: set<nat>)

  datatype Session = Session(site: Site, runs: seq<Run>)

  function Snapshot(site: Site, req: Request): Post {
    Post(req.postId, req.isRevision, req.postType, req.status, req.title, req.postId in site.featured)
  }

  /** The run made the post's featured image a real attachment (WordPress
      ignores `set_post_thumbnail` with id 0, which a failed insert returns). */
  predicate SetsFeatured(run: Run) {
    run.exit.Attached? && run.exit.id != 0
  }

  /** The site after one save. */
  function Save(site: Site, req: Request): (Site, Run) {
    var run := FetchImage(site.plugin, Snapshot(site, req), req.env);
    (Site(run.plugin, if SetsFeatured(run) then site.featured + {req.postId} else site.featured), run)
  }

  /** The saves in order. The flag is as it was after every save, and a post
      that has a featured image, from before or from an earlier run, is never
      searched for again. */
  function Handle(site: Site, reqs: seq<Request>): (r: Session)
    ensures |r.runs| == |reqs|
    ensures forall i :: 0 <= i < |r.runs| ==> |r.runs[i].trace| == EffectCount(r.runs[i].exit)
    ensures r.site.plugin.isFetching == site.plugin.isFetching
    ensures site.featured <= r.site.featured
    ensures forall i :: 0 <= i < |reqs| && reqs[i].postId in site.featured ==> r.runs[i].trace == []
    ensures forall i, j :: 0 <= i < j < |reqs| && SetsFeatured(r.runs[i]) && reqs[j].postId == reqs[i].postId ==>
      r.runs[j].trace == []
    decreases |reqs|
  {
    if reqs == [] then Session(site, [])
    else
      var (next, run) := Save(site, reqs[0]);
      var rest := Handle(next, reqs[1..]);
      var r := Session(rest.site, [run] + rest.runs);
      if reqs[0].postId in site.featured then NoSearchWhenFeatured(site, reqs[0]); r else r
  }

  /** A post that already has a featured image gets a run with no effects. */
  lemma NoSearchWhenFeatured(site: Site, req: Request)
    requires req.postId in site.featured
    ensures FetchImage(site.plugin, Snapshot(site, req), req.env).trace == []
  {
  }

  /** No post gets a featured image from the plugin twice in one sequence of
      saves, however often it is saved. */
  lemma NoPostFeaturedTwice(site: Site, reqs: seq<Request>)
    ensures var r := Handle(site, reqs);
      forall i, j :: 0 <= i < j < |reqs| && SetsFeatured(r.runs[i]) && SetsFeatured(r.runs[j]) ==>
        reqs[i].postId != reqs[j].postId
  {
    var r := Handle(site, reqs);
    forall i, j | 0 <= i < j < |reqs| && SetsFeatured(r.runs[i]) && SetsFeatured(r.runs[j])
      ensures reqs[i].postId != reqs[j].postId
    {
      assert |r.runs[j].trace| == EffectCount(r.runs[j].exit) == 8;
    }
  }
}
